=== FILE: README.md ===
# Orbit profiler capture core, modelled in Dafny

This project models the capture core of the Orbit profiler. It covers three pieces:

- **The uprobe trace visitor** (`BpfTraceVisitor`). It keeps, per thread, a stack of open
  timers. A function-entry event pushes a timer. A function-return event pops the top timer,
  stamps its end time and hands it to the timer sink with a string key. A lost-events notice
  only logs.
- **The timer manager** (`TimerManager`, `TimerManagerProperties`). It is a sequential state
  record holding:
  - the timer queue and the message queue, as FIFO sequences;
  - the recording, client, exit and flush flags;
  - the five bookkeeping counters;
  - the worker-thread handle;
  - a log of effects: callback calls in host mode, and wire sends in client mode.

  Each public operation (`Add`, `StartRecording`, `StopRecording`, `StartClient`,
  `StopClient`, `FlushQueue`, `Stop`) is a pure transition function. So is one wake-up of
  the `ConsumeTimers` thread and one iteration of the `SendTimers` loop.
- **`Pad`** (`EventTracer`). It rounds a size up to a multiple of 8 when laying out the
  kernel trace session properties buffer.

Modules: `Timers` (the timer record and the `uint8_t` cast), `Decimal` (`std::to_string` of
an address, with its inverse reading), `BpfTraceVisitor`, `TimerManager`,
`TimerManagerProperties` and `EventTracer`.

Modelling choices:
- The global timer sink `GCoreApp->ProcessTimer` becomes the visitor's `processed` log.
- The TCP client and the timer-added callbacks become the manager's `effects` log.
- The global session id `Message::GSessionID` is a parameter of `ConsumeTimers`.
- `sizeof(Timer)` is a parameter of `SendTimers` and `Stop`.
- Whether `GTcpClient` exists is a parameter of `StopClient`.
- Timer.h is not part of this model. A default-constructed `Timer` is the visitor's `blank`
  field: an entry event copies the end time and the session id from it.

Behaviour of the code that a reader might not expect, which the model keeps:
- `FlushQueue` throws the dequeued timers away. It neither delivers nor sends them; it only
  reports counts.
- A flush lowers `NumQueuedEntries` only by the flushed timers, so queued messages still
  count in it.
- `NumQueuedTimers` is not decremented by a flush.
- `Stop` joins a running sender thread. A sender that is waiting at its wake-up test when
  exit is requested runs one last iteration before the join returns: it sends a timer batch,
  which may be empty, and a queued-entry report. If a message is queued, the sender dequeues
  it, sees the exit flag, and drops it without decrementing any counter.
- The depth of a timer is the stack size cast to `uint8_t`. It equals the nesting level only
  modulo 256.
- The key of a completed timer is the decimal address of the *return* event's function.
- `SendTimers` wakes on any queued entry, messages included. With only messages queued it
  sends an empty timer batch.
- An unmatched return still creates an empty stack for its thread, because `operator[]`
  inserts one. The model keeps that map entry. Properties are stated through `StackOf`, which
  reads a missing thread as an empty stack.

## Model

| member | source | states |
|---|---|---|
| `Timers.ToUint8` | OrbitCore/BpfTraceVisitor.cpp:15 | the `uint8_t` cast keeps sizes below 256 and is congruent to the size modulo 256 |
| `Decimal.ToDecimal` | OrbitCore/BpfTraceVisitor.cpp:27 | the key is a non-empty string of decimal digits with no leading zero; it has one digit exactly for values below 10 |
| `Decimal.ParseToDecimal` | OrbitCore/BpfTraceVisitor.cpp:27 | reading the key as a decimal numeral gives back the function address |
| `Decimal.ToDecimalInjective` | OrbitCore/BpfTraceVisitor.cpp:27 | distinct addresses get distinct keys |
| `BpfTraceVisitor.OnEntry` | OrbitCore/BpfTraceVisitor.cpp:10-18 | an entry grows only its own thread's stack by one; the new top has the event's thread, timestamp and address, and depth = old stack size mod 256; no timer is emitted |
| `BpfTraceVisitor.OnReturn` | OrbitCore/BpfTraceVisitor.cpp:20-30 | on an empty stack nothing is emitted and no stack changes; otherwise exactly the former top is emitted, with end = event timestamp and as key exactly the decimal numeral of the return event's address, and the thread's stack loses its top; other threads are untouched |
| `BpfTraceVisitor.LostIsNoop` | OrbitCore/BpfTraceVisitor.cpp:5-8 | a lost-events notice changes no stack and emits nothing |
| `BpfTraceVisitor.EntryWithStackIsEntry` | OrbitCore/BpfTraceVisitor.cpp:33-41 | an entry with a captured callstack has exactly the effect of a plain entry |
| `BpfTraceVisitor.VisitPreservesWellFormed` | OrbitCore/BpfTraceVisitor.cpp:10-41 | every event keeps each open timer on its own thread's stack at the position its depth records (mod 256) |
| `BpfTraceVisitor.RunPreservesWellFormed` | OrbitCore/BpfTraceVisitor.cpp:10-41 | the same over any event sequence |
| `BpfTraceVisitor.ReturnedTimerDepth` | OrbitCore/BpfTraceVisitor.cpp:12-29 | a completed timer belongs to the returning thread, and its depth is the number of timers still open on that thread after the pop (mod 256) |
| `BpfTraceVisitor.RunStackDependsOnOwnStack` | OrbitCore/BpfTraceVisitor.cpp:15-28 | a thread's stack after any run depends only on that thread's stack before it |
| `BpfTraceVisitor.RunIsolatesThreads` | OrbitCore/BpfTraceVisitor.cpp:15-28 | a thread's stack after a run equals the result of running that thread's events alone |
| `BpfTraceVisitor.NestedCallsCompleteLastInFirstOut` | OrbitCore/BpfTraceVisitor.cpp:10-30 | entries E1, E2, E3 then three returns on one thread emit E3, E2, E1 with depths 2, 1, 0 and matching start and end times, and leave the stack empty |
| `BpfTraceVisitor.VisitKeepsTimeOrder` | OrbitCore/BpfTraceVisitor.cpp:12-26 | an event no earlier than every open timer's start keeps all completed timers with end >= start |
| `BpfTraceVisitor.RunCompletesForward` | OrbitCore/BpfTraceVisitor.cpp:12-26 | events in timestamp order complete only timers with end >= start |
| `TimerManager.Create` | OrbitCore/TimerManager.cpp:20-41 | a new manager is idle with empty queues and zero counters; in client mode the TCP client starts and the sender thread runs |
| `TimerManager.AddTimer` | OrbitCore/TimerManager.cpp:204-213 | while not recording nothing changes; while recording the timer goes to the back of the queue and entries and timers each grow by exactly one; nothing else changes |
| `TimerManager.AddMessage` | OrbitCore/TimerManager.cpp:216-225 | the state changes iff recording or in client mode; the message goes to the back of its queue and entries and messages each grow by one |
| `TimerManager.StartRecording` | OrbitCore/TimerManager.cpp:49-62 | a no-op while recording; otherwise recording turns on and the consumer thread is created only if no worker thread exists, so a worker is never replaced |
| `TimerManager.BatchesIsCeiling` | OrbitCore/TimerManager.cpp:94-113 | the number of bulk dequeues of at most 4096 that n queued timers take, one per full or final partial batch, is n/4096 rounded up |
| `TimerManager.FlushBatches` | OrbitCore/TimerManager.cpp:94-113 | bulk dequeues of at most 4096 empty the queue, the running total grows by the queue length, and in client mode the reports follow the batch schedule |
| `TimerManager.FlushQueue` | OrbitCore/TimerManager.cpp:90-117 | without an exit request the timer queue empties, NumFlushedTimers = initial length, entries drop by that length, NumQueuedTimers is unchanged, and client mode reports min((i+1)*4096, length) after batch i; with an exit request only NumFlushedTimers is reset; the flush flag ends false |
| `TimerManager.StopRecording` | OrbitCore/TimerManager.cpp:65-69 | recording ends off, then the flush runs: without an exit request the timer queue empties, NumFlushedTimers = its length, the entry counter drops by it and the timer counter is unchanged, and in client mode the cumulative flushed reports are appended to the effects; with an exit request only NumFlushedTimers is reset; outside client mode the effects are unchanged; nothing else changes |
| `TimerManager.StartClient` | OrbitCore/TimerManager.cpp:72-75 | only the recording flag changes, to on |
| `TimerManager.StopClient` | OrbitCore/TimerManager.cpp:78-87 | StopClient is StopRecording followed by one send-queue flush, appended exactly when a TCP client exists |
| `TimerManagerProperties.StopClientFlushesQueue` | OrbitCore/TimerManager.cpp:78-87 | recording ends off and the queue is flushed with the same counter changes as StopRecording (queue emptied, NumFlushedTimers = its length, entry counter down by it, timer counter unchanged; with an exit request only NumFlushedTimers is reset); nothing else changes and the bookkeeping invariant is kept |
| `TimerManagerProperties.StopClientReportsThenFlushesSendQueue` | OrbitCore/TimerManager.cpp:78-87 | earlier effects are kept; in client mode without an exit request the cumulative flushed reports come next; the send-queue flush comes last, and appears at all exactly when a TCP client exists |
| `TimerManager.Stop` | OrbitCore/TimerManager.cpp:120-130 | recording off, exit requested, and a worker thread that exists ends joined; a running sender's last iteration sends the first min(4096, length) timers and the remaining entry count, and drops the front message, if any, uncounted; without a running sender the queues, counters and effects are unchanged |
| `TimerManager.StopAsWritten` | OrbitCore/TimerManager.cpp:120-130 | the unguarded join throws exactly when the worker thread was already joined; when it does not throw, the result is exactly the corrected Stop; on a throw, only the recording and exit flags have changed |
| `TimerManager.Current` | OrbitCore/TimerManager.cpp:151 | the session filter keeps only timers of the current session, drawn from the queue |
| `TimerManager.Stale` | OrbitCore/TimerManager.cpp:158-161 | stale timers and current timers together account for the whole queue |
| `TimerManager.ConsumeLoop` | OrbitCore/TimerManager.cpp:146-162 | the inner loop dequeues every timer, counts the stale ones and delivers the current ones |
| `TimerManager.ConsumeTimers` | OrbitCore/TimerManager.cpp:142-163 | with no exit or flush request, the queue empties, entries and timers drop by its length, stale timers are counted, and the current ones are delivered in FIFO order to every callback; otherwise nothing changes |
| `TimerManager.RelayMessages` | OrbitCore/TimerManager.cpp:194-199 | every queued message is sent once, in queue order |
| `TimerManager.SendTimers` | OrbitCore/TimerManager.cpp:174-200 | with no queued entry (or on exit) nothing happens; otherwise, in order: one batch of the first n = min(4096, length) timers of size n*sizeof(Timer), then the remaining entry count, then every message in FIFO order; the counters drop accordingly |
| `TimerManagerProperties.CountersStayConsistent` | OrbitCore/TimerManager.cpp:90-225 | from construction, under any sequence of operations, entries = queued timers + the message counter, the message counter matches its queue (at most one ahead once exit is requested), and the timer counter never falls below the timer queue, so no counter goes negative |
| `TimerManagerProperties.ApplyAllKeepsCounted` | OrbitCore/TimerManager.cpp:90-225 | every sequence of operations preserves that bookkeeping |
| `TimerManagerProperties.FlushLeavesTimerCounterBehind` | OrbitCore/TimerManager.cpp:105-106 | after a flush, NumQueuedTimers exceeds the timer queue by the number of timers flushed |
| `TimerManagerProperties.FlushReportsRise` | OrbitCore/TimerManager.cpp:94-112 | the flushed counts reported in client mode rise strictly, in steps of at most 4096, stay within (0, n], and end at n |
| `TimerManagerProperties.NoTimerQueuedAfterStopRecording` | OrbitCore/TimerManager.cpp:65-69 | after StopRecording, Add(Timer) changes nothing |
| `TimerManagerProperties.StopIdempotent` | OrbitCore/TimerManager.cpp:120-130 | a second Stop changes nothing |
| `TimerManagerProperties.SecondStopAsWrittenThrows` | OrbitCore/TimerManager.cpp:126-129 | as written, a second Stop after a worker thread ran joins a joined thread and throws |
| `TimerManagerProperties.StopHaltsTheManager` | OrbitCore/TimerManager.cpp:120-124 | after Stop, neither worker loop does anything, Add(Timer) is a no-op, Add(Message) is a no-op outside client mode, and a flush drains nothing |
| `TimerManagerProperties.CallbackSeesTimersInOrder` | OrbitCore/TimerManager.cpp:146-157 | each registered callback receives every delivered timer exactly once, in queue order; an unregistered index receives nothing |
| `TimerManagerProperties.CurrentMembers` | OrbitCore/TimerManager.cpp:151 | a timer passes the session filter iff it is queued and carries the current session id |
| `TimerManagerProperties.ConsumerDeliversCurrentSessionOnly` | OrbitCore/TimerManager.cpp:146-161 | one consumer wake-up gives each callback exactly the current-session timers in queue order; a timer from another session reaches no callback |
| `TimerManagerProperties.SendRounds` | OrbitCore/TimerManager.cpp:174-200 | repeated sender iterations only append to the effect log and keep the bookkeeping |
| `TimerManagerProperties.SendTimersSendsFront` | OrbitCore/TimerManager.cpp:184-189 | the timers one iteration sends, followed by those still queued, are the original queue |
| `TimerManagerProperties.SenderSendsWholeQueueInOrder` | OrbitCore/TimerManager.cpp:174-189 | ceil(length/4096) iterations send the whole timer queue, each timer once and in FIFO order |
| `TimerManagerProperties.FiveThousandTimersGoOutInTwoBatches` | OrbitCore/TimerManager.cpp:184-192 | 5000 queued timers go out as a batch of 4096, a report of 904, a batch of 904, then a report of 0 |
| `EventTracer.CDiv` | OrbitCore/EventTracer.cpp:90-92 | C++ `/` truncates toward zero: the remainder a - q*b lies in [0, b) for a >= 0 and in (-b, 0] for a < 0 |
| `EventTracer.Pad` | OrbitCore/EventTracer.cpp:88-95 | the result is a multiple of 8; for a length >= 0 it is >= the length and less than 8 above it; a multiple of 8 is returned unchanged |
| `EventTracer.PadIsLeastMultiple` | OrbitCore/EventTracer.cpp:88-95 | for a length >= 0, no multiple of 8 at or above the length is below Pad(length) |
| `EventTracer.PadIdempotent` | OrbitCore/EventTracer.cpp:90-94 | padding twice equals padding once |
| `EventTracer.PadOfNegativeOvershoots` | OrbitCore/EventTracer.cpp:90-92 | for a negative length that is not a multiple of 8, Pad lands 8 above the least multiple of 8 at or above the length |
| `EventTracer.SessionLayout` | OrbitCore/EventTracer.cpp:106-109 | the name offset and buffer size are multiples of 8; the name region starts after the properties record, its N+1 bytes fit before the end of the buffer, and the buffer wastes less than 16 bytes |

## Left out

- The ETW session control in EventTracer.cpp is left out because it is operating-system I/O.
  This covers `Start` apart from its buffer-layout lines, `Stop`, `CleanupTrace`,
  `SetupStackTracing` and `EventTracerThread`.
- `EventTracer::SetSamplingFrequency` is left out: it does floating-point arithmetic and then
  makes an OS call.
- Real concurrency is left out: the consumer and sender threads, the condition variable and
  the lock-free queue internals. Each loop iteration is one sequential step that runs while
  no other operation is in progress, except the sender's last iteration, which `Stop` waits
  for through its join and which is part of `Stop` (see the `TimerManager.Stop` line below). Because of this, the flush flag is never
  observed set from outside `FlushQueue`, and exit is never requested in the middle of a
  `SendTimers` step.
- TimerManager.Stop: the model assumes that a running sender is waiting at its wake-up test
  when exit is requested, so it always runs the last iteration described above. A sender
  that has just finished an iteration and not yet re-tested its loop condition would instead
  see the exit flag and leave: no final batch, no report, no message dropped. That
  interleaving is not modelled.
- The queue capacity of 65534 is not modelled, and the queues are unbounded. The source has
  no guard for a full queue.
- The counters, timestamps, addresses and sizes are unbounded integers. The model does not
  cover 32-bit counter overflow or `Pad` overflowing near `INT_MAX`, which the sizes passed
  in cannot reach.
- `Add(ContextSwitch)` is left out: it only passes its argument to a foreign callback.
- `InitProfiling`, `SetCurrentThreadName`, thread priority and the `PRINT` of lost events are
  left out. They are diagnostics or OS calls.
- `m_Paused`, `m_IsFull` and `m_TimerIndex` are left out: they are initialised but not used
  by the modelled code.
- Callback registration is left out because it lives in TimerManager.h, which is not part of
  this model. Callbacks are numbered `0 .. numCallbacks-1`, in registration order.
- The `Message` contents are left opaque, because Message.h is not part of this model.
- The callstack captured by an entry-with-stack event is dropped, as in the source.
- TimerManager.StopClient: the source flushes the global manager `GTimerManager`, not
  necessarily the manager it is called on. The model assumes the two are the same, which
  is the case when this manager is `GTimerManager` itself.

## Findings

| source | as written | input that shows it | evidently intended | confidence | as-written member | corrected member |
|---|---|---|---|---|---|---|
| OrbitCore/TimerManager.cpp:126-129 | `Stop` joins `m_ConsumerThread` whenever a thread object was ever created | a manager whose worker thread was started, stopped twice: the second `join` is on an already joined `std::thread`, which throws `std::system_error` | shutdown is idempotent: join only a thread that is still joinable | medium, not executed | `TimerManagerProperties.SecondStopAsWrittenThrows` | `TimerManagerProperties.StopIdempotent` |

`TimerManager.StopAsWritten` models the unguarded join. `TimerManager.Stop` is the corrected
operation, and the rest of the model uses it.

=== FILE: bpf_trace_visitor.dfy ===
/** The uprobe event visitor: per-thread stacks of open timers that pair
    function-entry events with function-return events. */
module BpfTraceVisitor {
  import opened Timers
  import opened Decimal

  /** The four trace event kinds the visitor handles. */
  datatype Event =
    | PerfLost(lost: nat)
    | Uprobe(tid: int, timestamp: int, address: nat)
    | Uretprobe(tid: int, timestamp: int, address: nat)
    | UprobeWithStack(tid: int, timestamp: int, address: nat, callstack: seq<nat>)

  /** One call of the timer sink: a completed timer and its string key. */
  datatype Processed = Processed(timer: Timer, key: string)

  /** Visitor state.
      - stacks: the open timers of each thread, oldest first
      - blank: the field values of a default-constructed Timer
      - processed: every completed timer handed to the sink, in order */
  datatype Visitor = Visitor(stacks: map<int, seq<Timer>>, blank: Timer, processed: seq<Processed>)

  /** The open timers of a thread; a thread never seen has none. */
  function StackOf(v: Visitor, tid: int): seq<Timer> {
    if tid in v.stacks then v.stacks[tid] else []
  }

  /** Entry event: open a timer on top of the thread's stack. */
  function OnEntry(v: Visitor, tid: int, timestamp: int, address: nat): (r: Visitor)
    ensures r.processed == v.processed && r.blank == v.blank
    ensures |StackOf(r, tid)| == |StackOf(v, tid)| + 1
    ensures StackOf(r, tid)[..|StackOf(v, tid)|] == StackOf(v, tid)
    ensures var t := StackOf(r, tid)[|StackOf(v, tid)|];
      && t.tid == tid && t.start == timestamp && t.functionAddress == address
      && t.depth == |StackOf(v, tid)| % 256
      && t.end == v.blank.end && t.sessionId == v.blank.sessionId
    ensures forall u :: u != tid ==> StackOf(r, u) == StackOf(v, u)
  {
    var stack := StackOf(v, tid);
    var timer := v.blank.(tid := tid, start := timestamp, depth := ToUint8(|stack|), functionAddress := address);
    v.(stacks := v.stacks[tid := stack + [timer]])
  }

  /** Return event: close the thread's most recent open timer, if any, and
      hand it to the sink keyed by the return event's function address. */
  function OnReturn(v: Visitor, tid: int, timestamp: int, address: nat): (r: Visitor)
    ensures r.blank == v.blank
    ensures forall u :: u != tid ==> StackOf(r, u) == StackOf(v, u)
    ensures |StackOf(v, tid)| == 0 ==> r.processed == v.processed && StackOf(r, tid) == []
    ensures |StackOf(v, tid)| > 0 ==>
      && |r.processed| == |v.processed| + 1
      && r.processed[..|v.processed|] == v.processed
      && var p := r.processed[|v.processed|];
         && StackOf(v, tid) == StackOf(r, tid) + [p.timer.(end := StackOf(v, tid)[|StackOf(v, tid)| - 1].end)]
         && p.timer.end == timestamp
         && p.key == ToDecimal(address)
         && AllDigits(p.key) && ParseDecimal(p.key) == address
  {
    var stack := StackOf(v, tid);
    if |stack| == 0 then
      // operator[] still inserts an empty stack for the thread
      v.(stacks := v.stacks[tid := stack])
    else
      var top := stack[|stack| - 1].(end := timestamp);
      ParseToDecimal(address);
      v.(stacks := v.stacks[tid := stack[..|stack| - 1]],
         processed := v.processed + [Processed(top, ToDecimal(address))])
  }

  /** Dispatch on the event kind. A lost-events notice is only logged; the
      captured callstack of an entry event is dropped. */
  function Visit(v: Visitor, e: Event): Visitor {
    match e
    case PerfLost(_) => v
    case Uprobe(tid, ts, a) => OnEntry(v, tid, ts, a)
    case Uretprobe(tid, ts, a) => OnReturn(v, tid, ts, a)
    case UprobeWithStack(tid, ts, a, _) => OnEntry(v, tid, ts, a)
  }

  /** Feed a sequence of events to the visitor, in arrival order. */
  function Run(v: Visitor, events: seq<Event>): Visitor
    decreases |events|
  {
    if events == [] then v else Run(Visit(v, events[0]), events[1..])
  }

  /** The thread an event belongs to, if it has one. */
  predicate OnThread(e: Event, tid: int) {
    !e.PerfLost? && e.tid == tid
  }

  /** The events of one thread, in arrival order. */
  function EventsOf(events: seq<Event>, tid: int): (r: seq<Event>)
    ensures |r| <= |events|
    ensures forall i :: 0 <= i < |r| ==> OnThread(r[i], tid)
    decreases |events|
  {
    if events == [] then []
    else if OnThread(events[0], tid) then [events[0]] + EventsOf(events[1..], tid)
    else EventsOf(events[1..], tid)
  }

  /** Each open timer sits on its own thread's stack at the position its
      depth records (modulo 256, the width of the depth field). */
  ghost predicate WellFormed(v: Visitor) {
    forall tid, i :: tid in v.stacks && 0 <= i < |v.stacks[tid]| ==>
      v.stacks[tid][i].tid == tid && v.stacks[tid][i].depth == i % 256
  }

  /** A lost-events notice changes nothing. */
  lemma LostIsNoop(v: Visitor, lost: nat)
    ensures Visit(v, PerfLost(lost)) == v
  {
  }

  /** An entry with a captured callstack acts exactly as a plain entry. */
  lemma EntryWithStackIsEntry(v: Visitor, tid: int, timestamp: int, address: nat, callstack: seq<nat>)
    ensures Visit(v, UprobeWithStack(tid, timestamp, address, callstack)) == Visit(v, Uprobe(tid, timestamp, address))
  {
  }

  /** Every event kind keeps the stacks well formed. */
  lemma VisitPreservesWellFormed(v: Visitor, e: Event)
    requires WellFormed(v)
    ensures WellFormed(Visit(v, e))
  {
  }

  lemma {:induction false} RunPreservesWellFormed(v: Visitor, events: seq<Event>)
    requires WellFormed(v)
    ensures WellFormed(Run(v, events))
    decreases |events|
  {
    if events != [] {
      VisitPreservesWellFormed(v, events[0]);
      RunPreservesWellFormed(Visit(v, events[0]), events[1..]);
    }
  }

  /** On well-formed stacks a return completes a timer of the returning
      thread whose depth is its nesting level: the number of timers still
      open on that thread once it is popped. */
  lemma ReturnedTimerDepth(v: Visitor, tid: int, timestamp: int, address: nat)
    requires WellFormed(v)
    requires |StackOf(v, tid)| > 0
    ensures var r := OnReturn(v, tid, timestamp, address);
      var t := r.processed[|v.processed|].timer;
      && t.tid == tid
      && t.depth == |StackOf(r, tid)| % 256
      && t.end == timestamp
  {
  }

  /** The stack of one thread after a run depends only on that thread's
      stack before the run. */
  lemma {:induction false} RunStackDependsOnOwnStack(v: Visitor, w: Visitor, events: seq<Event>, tid: int)
    requires StackOf(v, tid) == StackOf(w, tid) && v.blank == w.blank
    ensures StackOf(Run(v, events), tid) == StackOf(Run(w, events), tid)
    decreases |events|
  {
    if events != [] {
      var e := events[0];
      var v', w' := Visit(v, e), Visit(w, e);
      if e.PerfLost? {
      } else if e.tid != tid {
        assert StackOf(v', tid) == StackOf(v, tid);
        assert StackOf(w', tid) == StackOf(w, tid);
      } else if e.Uretprobe? {
        assert StackOf(v', tid) == StackOf(w', tid);
      } else {
        assert StackOf(v', tid) == StackOf(w', tid);
      }
      RunStackDependsOnOwnStack(v', w', events[1..], tid);
    }
  }

  /** Per-thread isolation: a thread's stack after a run is what the run of
      that thread's own events alone produces. */
  lemma {:induction false} RunIsolatesThreads(v: Visitor, events: seq<Event>, tid: int)
    ensures StackOf(Run(v, events), tid) == StackOf(Run(v, EventsOf(events, tid)), tid)
    decreases |events|
  {
    if events != [] {
      var e := events[0];
      RunIsolatesThreads(Visit(v, e), events[1..], tid);
      if OnThread(e, tid) {
        assert EventsOf(events, tid) == [e] + EventsOf(events[1..], tid);
        assert ([e] + EventsOf(events[1..], tid))[1..] == EventsOf(events[1..], tid);
      } else {
        assert StackOf(Visit(v, e), tid) == StackOf(v, tid);
        RunStackDependsOnOwnStack(Visit(v, e), v, EventsOf(events[1..], tid), tid);
      }
    }
  }

  /** Three nested entries on one thread followed by three returns complete
      the innermost call first, with depths 2, 1 and 0, and leave the thread
      with no open timer. */
  lemma NestedCallsCompleteLastInFirstOut(v: Visitor, tid: int, t1: int, t2: int, t3: int, t4: int, t5: int, t6: int, a1: nat, a2: nat, a3: nat)
    requires StackOf(v, tid) == []
    ensures var r := Run(v, [Uprobe(tid, t1, a1), Uprobe(tid, t2, a2), Uprobe(tid, t3, a3),
                             Uretprobe(tid, t4, a3), Uretprobe(tid, t5, a2), Uretprobe(tid, t6, a1)]);
      && StackOf(r, tid) == []
      && |r.processed| == |v.processed| + 3
      && r.processed[..|v.processed|] == v.processed
      && var n := |v.processed|;
         && r.processed[n].timer.depth == 2 && r.processed[n].timer.functionAddress == a3
         && r.processed[n].timer.start == t3 && r.processed[n].timer.end == t4
         && r.processed[n + 1].timer.depth == 1 && r.processed[n + 1].timer.functionAddress == a2
         && r.processed[n + 1].timer.start == t2 && r.processed[n + 1].timer.end == t5
         && r.processed[n + 2].timer.depth == 0 && r.processed[n + 2].timer.functionAddress == a1
         && r.processed[n + 2].timer.start == t1 && r.processed[n + 2].timer.end == t6
  {
    var events := [Uprobe(tid, t1, a1), Uprobe(tid, t2, a2), Uprobe(tid, t3, a3),
                   Uretprobe(tid, t4, a3), Uretprobe(tid, t5, a2), Uretprobe(tid, t6, a1)];
    var v1 := Visit(v, events[0]);
    var v2 := Visit(v1, events[1]);
    var v3 := Visit(v2, events[2]);
    var v4 := Visit(v3, events[3]);
    var v5 := Visit(v4, events[4]);
    var v6 := Visit(v5, events[5]);
    assert Run(v, events) == v6 by {
      assert Run(v, events) == Run(v1, events[1..]);
      assert Run(v1, events[1..]) == Run(v2, events[2..]);
      assert Run(v2, events[2..]) == Run(v3, events[3..]);
      assert Run(v3, events[3..]) == Run(v4, events[4..]);
      assert Run(v4, events[4..]) == Run(v5, events[5..]);
      assert Run(v5, events[5..]) == Run(v6, events[6..]);
      assert events[6..] == [];
    }
    var n := |v.processed|;
    assert v4.processed[..n] == v.processed;
    assert v5.processed[..n + 1] == v4.processed;
    assert v6.processed[..n + 2] == v5.processed;
  }

  /** The timestamp an event carries; a lost-events notice carries none and
      leaves the clock where it was. */
  function TimeOf(e: Event, clock: int): int {
    if e.PerfLost? then clock else e.timestamp
  }

  /** The events arrive with non-decreasing timestamps, none before clock. */
  predicate InTimeOrder(events: seq<Event>, clock: int)
    decreases |events|
  {
    events == [] || (clock <= TimeOf(events[0], clock) && InTimeOrder(events[1..], TimeOf(events[0], clock)))
  }

  /** Every open timer started no later than clock. */
  ghost predicate OpenedBy(v: Visitor, clock: int) {
    forall tid, i :: tid in v.stacks && 0 <= i < |v.stacks[tid]| ==> v.stacks[tid][i].start <= clock
  }

  /** Every completed timer ends no earlier than it starts. */
  ghost predicate Completed(ps: seq<Processed>) {
    forall i :: 0 <= i < |ps| ==> ps[i].timer.start <= ps[i].timer.end
  }

  lemma EntryKeepsTimeOrder(v: Visitor, tid: int, timestamp: int, address: nat, clock: int)
    requires OpenedBy(v, clock) && Completed(v.processed)
    requires clock <= timestamp
    ensures var r := OnEntry(v, tid, timestamp, address);
      OpenedBy(r, timestamp) && Completed(r.processed)
  {
    var r := OnEntry(v, tid, timestamp, address);
    forall u, i | u in r.stacks && 0 <= i < |r.stacks[u]|
      ensures r.stacks[u][i].start <= timestamp
    {
      if u != tid {
        assert r.stacks[u] == v.stacks[u];
      } else if i < |StackOf(v, tid)| {
        assert r.stacks[u][i] == v.stacks[tid][i];
      }
    }
  }

  lemma ReturnKeepsTimeOrder(v: Visitor, tid: int, timestamp: int, address: nat, clock: int)
    requires OpenedBy(v, clock) && Completed(v.processed)
    requires clock <= timestamp
    ensures var r := OnReturn(v, tid, timestamp, address);
      OpenedBy(r, timestamp) && Completed(r.processed)
  {
    var r := OnReturn(v, tid, timestamp, address);
    forall u, i | u in r.stacks && 0 <= i < |r.stacks[u]|
      ensures r.stacks[u][i].start <= timestamp
    {
      if u != tid {
        assert r.stacks[u] == v.stacks[u];
      } else {
        assert r.stacks[u][i] == v.stacks[tid][i];
      }
    }
    if |StackOf(v, tid)| > 0 {
      var stack := v.stacks[tid];
      assert r.processed == v.processed + [Processed(stack[|stack| - 1].(end := timestamp), ToDecimal(address))];
    }
  }

  lemma VisitKeepsTimeOrder(v: Visitor, e: Event, clock: int)
    requires OpenedBy(v, clock) && Completed(v.processed)
    requires clock <= TimeOf(e, clock)
    ensures OpenedBy(Visit(v, e), TimeOf(e, clock)) && Completed(Visit(v, e).processed)
  {
    match e
    case PerfLost(_) =>
    case Uprobe(tid, ts, a) => EntryKeepsTimeOrder(v, tid, ts, a, clock);
    case UprobeWithStack(tid, ts, a, _) => EntryKeepsTimeOrder(v, tid, ts, a, clock);
    case Uretprobe(tid, ts, a) => ReturnKeepsTimeOrder(v, tid, ts, a, clock);
  }

  /** Events delivered in time order complete only timers with
      end >= start. */
  lemma {:induction false} RunCompletesForward(v: Visitor, events: seq<Event>, clock: int)
    requires OpenedBy(v, clock) && Completed(v.processed)
    requires InTimeOrder(events, clock)
    ensures Completed(Run(v, events).processed)
    decreases |events|
  {
    if events != [] {
      VisitKeepsTimeOrder(v, events[0], clock);
      RunCompletesForward(Visit(v, events[0]), events[1..], TimeOf(events[0], clock));
    }
  }
}

=== FILE: decimal.dfy ===
/** Decimal rendering of an unsigned address, as `std::to_string` produces it
    for an unsigned 64-bit value, and the reading that inverts it. */
module Decimal {

  predicate IsDigit(c: char) {
    '0' <= c <= '9'
  }

  predicate AllDigits(s: string) {
    forall i :: 0 <= i < |s| ==> IsDigit(s[i])
  }

  function DigitChar(d: nat): (c: char)
    requires d < 10
    ensures IsDigit(c)
    ensures c as int - '0' as int == d
  {
    ('0' as int + d) as char
  }

  function DigitValue(c: char): nat
    requires IsDigit(c)
  {
    c as int - '0' as int
  }

  /** The shortest decimal numeral of n: at least one digit, and no leading
      zero unless the numeral is "0". */
  function ToDecimal(n: nat): (s: string)
    ensures 1 <= |s|
    ensures AllDigits(s)
    ensures |s| > 1 ==> s[0] != '0'
    ensures n < 10 <==> |s| == 1
    decreases n
  {
    if n < 10 then [DigitChar(n)] else ToDecimal(n / 10) + [DigitChar(n % 10)]
  }

  /** The value of a numeral, most significant digit first. */
  function ParseDecimal(s: string): nat
    requires AllDigits(s)
    decreases |s|
  {
    if s == [] then 0
    else ParseDecimal(s[..|s| - 1]) * 10 + DigitValue(s[|s| - 1])
  }

  /** Reading the rendered numeral gives the address back. */
  lemma {:induction false} ParseToDecimal(n: nat)
    ensures ParseDecimal(ToDecimal(n)) == n
    decreases n
  {
    var s := ToDecimal(n);
    if n < 10 {
      assert s[..|s| - 1] == [];
    } else {
      ParseToDecimal(n / 10);
      assert s[..|s| - 1] == ToDecimal(n / 10);
    }
  }

  /** Two addresses with the same key are the same address. */
  lemma ToDecimalInjective(a: nat, b: nat)
    ensures ToDecimal(a) == ToDecimal(b) ==> a == b
  {
    ParseToDecimal(a);
    ParseToDecimal(b);
  }
}

=== FILE: event_tracer.dfy ===
/** The padding arithmetic that lays out the kernel trace session
    properties buffer: the properties record, then the logger name, each
    region rounded up to a multiple of 8 bytes. */
module EventTracer {

  /** C++ integer division, which truncates toward zero (Dafny's `/` is
      Euclidean). */
  function CDiv(a: int, b: int): (q: int)
    requires b > 0
    ensures a >= 0 ==> 0 <= a - q * b < b
    ensures a < 0 ==> -b < a - q * b <= 0
  {
    if a >= 0 then a / b else -((-a) / b)
  }

  /** Pad: a length that is not a multiple of 8 is rounded to the next
      multiple of 8 above its truncated quotient. For the non-negative
      lengths it is given (sizes) this is the least multiple of 8 not below
      the length. */
  function Pad(length: int): (r: int)
    ensures r % 8 == 0
    ensures length >= 0 ==> length <= r < length + 8
    ensures length % 8 == 0 ==> r == length
  {
    if CDiv(length, 8) * 8 != length then (CDiv(length, 8) + 1) * 8 else length
  }

  /** Pad gives the least multiple of 8 not below a non-negative length. */
  lemma PadIsLeastMultiple(length: int, k: int)
    requires length >= 0
    requires k % 8 == 0 && k >= length
    ensures Pad(length) <= k
  {
  }

  /** Padding a padded length changes nothing. */
  lemma PadIdempotent(length: int)
    ensures Pad(Pad(length)) == Pad(length)
  {
  }

  /** For a negative length that is not a multiple of 8, truncating division
      makes Pad overshoot: the result lies 8 above the least multiple of 8
      not below the length. No caller passes a negative length. */
  lemma PadOfNegativeOvershoots(length: int)
    requires length < 0 && length % 8 != 0
    ensures Pad(length) - length > 8 && Pad(length) - length < 16
  {
  }

  /** The layout of the session properties buffer for a properties record
      of propertiesSize bytes and a logger name of nameSize bytes. */
  datatype Layout = Layout(bufferSize: int, loggerNameOffset: int)

  function SessionLayout(propertiesSize: nat, nameSize: nat): (l: Layout)
    ensures l.loggerNameOffset % 8 == 0 && l.bufferSize % 8 == 0
    ensures propertiesSize <= l.loggerNameOffset
    ensures l.loggerNameOffset + nameSize + 1 <= l.bufferSize
    ensures l.bufferSize < propertiesSize + nameSize + 1 + 16
  {
    Layout(Pad(propertiesSize) + Pad(nameSize + 1), Pad(propertiesSize))
  }
}

=== FILE: timer_manager.dfy ===
/** The timer manager as a sequential state machine: two FIFO queues, the
    recording flags, the bookkeeping counters, and a log of what the
    consumer and sender threads hand to the outside world. Each step
    function is one public operation, or one iteration of a thread loop
    taken while no other operation runs. */
module TimerManager {
  import opened Timers

  /** Timers removed by one bulk dequeue in FlushQueue and SendTimers. */
  const BatchCapacity: nat := 4096

  function Min(a: int, b: int): int {
    if a <= b then a else b
  }

  /** The number of bulk dequeues of at most BatchCapacity that n items need:
      one per full or final partial batch. */
  function Batches(n: nat): nat
    decreases n
  {
    if n == 0 then 0 else 1 + Batches(n - Min(BatchCapacity, n))
  }

  /** Batches(n) is n / BatchCapacity rounded up. */
  lemma {:induction false} BatchesIsCeiling(n: nat)
    ensures Batches(n) == (n + BatchCapacity - 1) / BatchCapacity
    decreases n
  {
    if n > BatchCapacity {
      BatchesIsCeiling(n - BatchCapacity);
    }
  }

  /** A generic outbound message. Message.h is not part of this model, so
      its content is opaque. */
  datatype Message = Message(kind: nat, payload: seq<int>)

  /** What the manager's worker thread runs: ConsumeTimers in host mode,
      SendTimers in client mode. */
  datatype Role = Consumer | Sender

  /** The manager's worker thread handle. A joined std::thread is no longer
      joinable. */
  datatype Thread = NoThread | Running(role: Role) | Joined(role: Role)

  /** The four kinds of message sent to the remote host in client mode. */
  datatype Wire =
    | TimerBatch(timers: seq<Timer>, size: nat)
    | NumQueuedEntries(queued: int)
    | NumFlushedEntries(flushed: int)
    | Relayed(message: Message)

  /** An externally visible effect of the manager. */
  datatype Effect =
    | ClientStarted
    | Delivered(callback: nat, timer: Timer)
    | Sent(wire: Wire)
    | SendQueueFlushed

  /** Manager state.
      - numCallbacks: the registered timer-added callbacks are 0 .. numCallbacks-1,
        called in that order
      - timers, messages: the two lock-free queues, front first
      - effects: callback calls and sends, in the order they happen */
  datatype Manager = Manager(
    isClient: bool,
    isRecording: bool,
    exitRequested: bool,
    flushRequested: bool,
    thread: Thread,
    numCallbacks: nat,
    timers: seq<Timer>,
    messages: seq<Message>,
    numQueuedEntries: int,
    numQueuedTimers: int,
    numQueuedMessages: int,
    numFlushedTimers: int,
    numTimersFromPreviousSession: int,
    effects: seq<Effect>)

  /** The bookkeeping the operations keep between calls:
      - the entry counter is the queued timers plus the message counter;
      - the message counter matches the message queue, except that once exit
        is requested it may be one ahead: the sender's last iteration can
        dequeue one message and drop it without counting it out;
      - the timer counter may run ahead of the timer queue, because
        FlushQueue never decrements it;
      - once exit is requested no sender thread runs any more. */
  ghost predicate Counted(m: Manager) {
    && m.numQueuedEntries == |m.timers| + m.numQueuedMessages
    && |m.messages| <= m.numQueuedMessages <= |m.messages| + (if m.exitRequested then 1 else 0)
    && m.numQueuedTimers >= |m.timers|
    && !m.flushRequested
    && (m.exitRequested ==> m.thread != Running(Sender))
  }

  /** The mode, the flags, the worker thread and the callbacks agree. */
  predicate SameSettings(a: Manager, b: Manager) {
    && a.isClient == b.isClient && a.isRecording == b.isRecording
    && a.exitRequested == b.exitRequested && a.flushRequested == b.flushRequested
    && a.thread == b.thread && a.numCallbacks == b.numCallbacks
  }

  /** A new manager. In client mode it starts the TCP client and the sender
      thread at once. */
  function Create(isClient: bool, numCallbacks: nat): (r: Manager)
    ensures r.isClient == isClient && r.numCallbacks == numCallbacks
    ensures !r.isRecording && !r.exitRequested
    ensures r.timers == [] && r.messages == [] && r.numQueuedTimers == 0
    ensures r.numFlushedTimers == 0 && r.numTimersFromPreviousSession == 0
    ensures isClient ==> r.thread == Running(Sender) && r.effects == [ClientStarted]
    ensures !isClient ==> r.thread == NoThread && r.effects == []
    ensures Counted(r)
  {
    Manager(isClient, false, false, false, if isClient then Running(Sender) else NoThread, numCallbacks,
            [], [], 0, 0, 0, 0, 0, if isClient then [ClientStarted] else [])
  }

  /** Add(Timer): queue a completed timer, only while recording. */
  function AddTimer(m: Manager, t: Timer): (r: Manager)
    ensures !m.isRecording ==> r == m
    ensures m.isRecording ==>
      && r.timers == m.timers + [t]
      && r.numQueuedEntries == m.numQueuedEntries + 1
      && r.numQueuedTimers == m.numQueuedTimers + 1
      && r.(timers := m.timers, numQueuedEntries := m.numQueuedEntries, numQueuedTimers := m.numQueuedTimers) == m
    ensures Counted(m) ==> Counted(r)
  {
    if m.isRecording then
      m.(timers := m.timers + [t], numQueuedEntries := m.numQueuedEntries + 1,
         numQueuedTimers := m.numQueuedTimers + 1)
    else m
  }

  /** Add(Message): queue a message while recording or in client mode. */
  function AddMessage(m: Manager, msg: Message): (r: Manager)
    ensures r != m <==> m.isRecording || m.isClient
    ensures (m.isRecording || m.isClient) ==>
      && r.messages == m.messages + [msg]
      && r.numQueuedEntries == m.numQueuedEntries + 1
      && r.numQueuedMessages == m.numQueuedMessages + 1
      && r.(messages := m.messages, numQueuedEntries := m.numQueuedEntries, numQueuedMessages := m.numQueuedMessages) == m
    ensures Counted(m) ==> Counted(r)
  {
    if m.isRecording || m.isClient then
      m.(messages := m.messages + [msg], numQueuedEntries := m.numQueuedEntries + 1,
         numQueuedMessages := m.numQueuedMessages + 1)
    else m
  }

  /** StartRecording: a no-op while recording; otherwise turn recording on,
      starting the consumer thread only if no worker thread exists yet. */
  function StartRecording(m: Manager): (r: Manager)
    ensures r.isRecording
    ensures m.isRecording ==> r == m
    ensures m.thread != NoThread ==> r.thread == m.thread
    ensures !m.isRecording && m.thread == NoThread ==> r.thread == Running(Consumer)
    ensures r.(isRecording := m.isRecording, thread := m.thread) == m
    ensures Counted(m) ==> Counted(r)
  {
    if m.isRecording then m
    else
      var thread := if m.thread == NoThread then Running(Consumer) else m.thread;
      m.(thread := thread, isRecording := true)
  }

  /** The cumulative flushed counts FlushQueue reports, one per bulk
      dequeue: after batch i, done plus the first min((i+1) * 4096, n) of n
      flushed timers. */
  ghost predicate FlushReports(es: seq<Effect>, done: int, n: nat) {
    && |es| == Batches(n)
    && forall i :: 0 <= i < |es| ==> es[i] == Sent(NumFlushedEntries(done + Min((i + 1) * BatchCapacity, n)))
  }

  lemma FlushReportsStep(es: seq<Effect>, done: int, n: nat)
    requires n > 0
    requires FlushReports(es, done + Min(BatchCapacity, n), n - Min(BatchCapacity, n))
    ensures FlushReports([Sent(NumFlushedEntries(done + Min(BatchCapacity, n)))] + es, done, n)
  {
  }

  /** What a bulk-dequeue loop leaves: the timers still queued, the
      cumulative number dequeued, and the reports sent on the way. */
  datatype Flushed = Flushed(rest: seq<Timer>, total: int, reports: seq<Effect>)

  /** The bulk-dequeue loop of FlushQueue: dequeue up to 4096 timers at a
      time until a dequeue returns nothing, reporting the running total in
      client mode. Dequeued timers are dropped. */
  function FlushBatches(q: seq<Timer>, total: int, isClient: bool): (r: Flushed)
    ensures r.rest == []
    ensures r.total == total + |q|
    ensures isClient ==> FlushReports(r.reports, total, |q|)
    ensures !isClient ==> r.reports == []
    decreases |q|
  {
    var n := Min(BatchCapacity, |q|);
    if n == 0 then Flushed(q, total, [])
    else
      var r := FlushBatches(q[n..], total + n, isClient);
      if isClient then
        FlushReportsStep(r.reports, total, |q|);
        r.(reports := [Sent(NumFlushedEntries(total + n))] + r.reports)
      else r
  }

  /** FlushQueue: unless exit is requested, drain the timer queue, reporting
      cumulative counts to the remote host in client mode. The entry counter
      drops by the number of flushed timers; the timer counter is left
      untouched. */
  function FlushQueue(m: Manager): (r: Manager)
    ensures !r.flushRequested
    ensures m.exitRequested ==> r == m.(flushRequested := false, numFlushedTimers := 0)
    ensures !m.exitRequested ==>
      && r.timers == []
      && r.numFlushedTimers == |m.timers|
      && r.numQueuedEntries == m.numQueuedEntries - |m.timers|
      && r.numQueuedTimers == m.numQueuedTimers
      && |r.effects| >= |m.effects| && r.effects[..|m.effects|] == m.effects
      && (m.isClient ==> FlushReports(r.effects[|m.effects|..], 0, |m.timers|))
    ensures !m.isClient ==> r.effects == m.effects
    ensures r.(timers := m.timers, numQueuedEntries := m.numQueuedEntries, numFlushedTimers := m.numFlushedTimers,
               flushRequested := m.flushRequested, effects := m.effects) == m
    ensures Counted(m) ==> Counted(r)
  {
    if m.exitRequested then m.(flushRequested := false, numFlushedTimers := 0)
    else
      var f := FlushBatches(m.timers, 0, m.isClient);
      assert (m.effects + f.reports)[|m.effects|..] == f.reports;
      m.(timers := f.rest, numQueuedEntries := m.numQueuedEntries - f.total, numFlushedTimers := f.total,
         effects := m.effects + f.reports, flushRequested := false)
  }

  /** StopRecording: turn recording off, then flush. */
  function StopRecording(m: Manager): (r: Manager)
    ensures !r.isRecording && !r.flushRequested
    ensures !m.exitRequested ==>
      && r.timers == [] && r.numFlushedTimers == |m.timers|
      && r.numQueuedEntries == m.numQueuedEntries - |m.timers|
      && r.numQueuedTimers == m.numQueuedTimers
    ensures m.exitRequested ==> r.timers == m.timers && r.numFlushedTimers == 0 && r.numQueuedEntries == m.numQueuedEntries
    ensures !m.isClient || m.exitRequested ==> r.effects == m.effects
    ensures m.isClient && !m.exitRequested ==>
      && |r.effects| >= |m.effects| && r.effects[..|m.effects|] == m.effects
      && FlushReports(r.effects[|m.effects|..], 0, |m.timers|)
    ensures r.(isRecording := m.isRecording, timers := m.timers, numQueuedEntries := m.numQueuedEntries,
               numFlushedTimers := m.numFlushedTimers, flushRequested := m.flushRequested, effects := m.effects) == m
    ensures Counted(m) ==> Counted(r)
  {
    FlushQueue(m.(isRecording := false))
  }

  /** StartClient: turn recording on; the sender thread already runs. */
  function StartClient(m: Manager): (r: Manager)
    ensures r.isRecording
    ensures r.(isRecording := m.isRecording) == m
  {
    m.(isRecording := true)
  }

  /** StopClient: turn recording off, flush, then flush the TCP client's
      send queue if a TCP client exists. That is StopRecording followed by
      one send-queue flush; TimerManagerProperties spells out what follows. */
  function StopClient(m: Manager, hasTcpClient: bool): (r: Manager)
    ensures r.(effects := m.effects) == StopRecording(m).(effects := m.effects)
    ensures r.effects == StopRecording(m).effects + (if hasTcpClient then [SendQueueFlushed] else [])
    ensures Counted(m) ==> Counted(r)
  {
    var flushed := StopRecording(m);
    flushed.(effects := flushed.effects + if hasTcpClient then [SendQueueFlushed] else [])
  }

  /** Joining a thread handle; a handle with no running thread is kept. */
  function Join(t: Thread): Thread {
    if t.Running? then Joined(t.role) else t
  }

  /** The last iteration of a sender thread that Stop wakes: the wait ends on
      the exit flag, one batch of at most 4096 timers and the queued-entry
      count are sent, and the message loop dequeues one message, if any, then
      sees the exit flag and drops it uncounted. */
  function SenderLastIteration(m: Manager, timerSize: nat): Manager {
    var n := Min(BatchCapacity, |m.timers|);
    m.(timers := m.timers[n..], messages := if m.messages == [] then [] else m.messages[1..],
       numQueuedEntries := m.numQueuedEntries - n, numQueuedTimers := m.numQueuedTimers - n,
       effects := m.effects + [Sent(TimerBatch(m.timers[..n], n * timerSize)),
                               Sent(NumQueuedEntries(m.numQueuedEntries - n))])
  }

  /** What Stop does before its join returns: turn recording off, request
      exit, and let a running sender finish its last iteration. A consumer
      thread re-checks the exit flag before dequeuing and does nothing. */
  function Shutdown(m: Manager, timerSize: nat): Manager {
    var flagged := m.(isRecording := false, exitRequested := true);
    if m.thread == Running(Sender) then SenderLastIteration(flagged, timerSize) else flagged
  }

  /** Stop, with the join guarded so that it happens at most once: turn
      recording off, request exit, and join a still-running worker thread.
      Joining a running sender lets it send one last, possibly empty, timer
      batch and a queued-entry report, and drop the front message, if any,
      uncounted. */
  function Stop(m: Manager, timerSize: nat): (r: Manager)
    ensures !r.isRecording && r.exitRequested
    ensures !r.thread.Running?
    ensures m.thread == NoThread <==> r.thread == NoThread
    ensures m.thread != NoThread ==> r.thread == Joined(m.thread.role)
    ensures m.thread == Running(Sender) ==>
      var n := Min(BatchCapacity, |m.timers|);
      && r.effects == m.effects + [Sent(TimerBatch(m.timers[..n], n * timerSize)),
                                   Sent(NumQueuedEntries(m.numQueuedEntries - n))]
      && r.timers == m.timers[n..]
      && r.numQueuedEntries == m.numQueuedEntries - n
      && r.numQueuedTimers == m.numQueuedTimers - n
      && r.messages == if m.messages == [] then [] else m.messages[1..]
    ensures m.thread != Running(Sender) ==>
      && r.effects == m.effects && r.timers == m.timers && r.messages == m.messages
      && r.numQueuedEntries == m.numQueuedEntries && r.numQueuedTimers == m.numQueuedTimers
    ensures r.(isRecording := m.isRecording, exitRequested := m.exitRequested, thread := m.thread,
               timers := m.timers, messages := m.messages, numQueuedEntries := m.numQueuedEntries,
               numQueuedTimers := m.numQueuedTimers, effects := m.effects) == m
    ensures Counted(m) ==> Counted(r)
  {
    Shutdown(m, timerSize).(thread := Join(m.thread))
  }

  /** The result of Stop as written: joining a thread that was already joined
      throws std::system_error, after the flags are set. */
  datatype StopOutcome = Stopped(manager: Manager) | Threw(manager: Manager)

  /** Stop as the source writes it: the join is not guarded. */
  function StopAsWritten(m: Manager, timerSize: nat): (r: StopOutcome)
    ensures r.Threw? <==> m.thread.Joined?
    ensures !r.manager.isRecording && r.manager.exitRequested
    ensures r.manager.thread == Join(m.thread)
    ensures r.Stopped? ==> r.manager == Stop(m, timerSize)
    ensures r.Threw? ==> r.manager == m.(isRecording := false, exitRequested := true)
  {
    if m.thread.Joined? then Threw(Shutdown(m, timerSize))
    else Stopped(Shutdown(m, timerSize).(thread := Join(m.thread)))
  }

  /** Every registered callback, in registration order, called with t. */
  function Fanout(t: Timer, n: nat): (es: seq<Effect>)
    ensures |es| == n
    ensures forall j :: 0 <= j < n ==> es[j] == Delivered(j, t)
  {
    seq(n, j requires 0 <= j => Delivered(j, t))
  }

  /** The callback calls for a sequence of timers, one timer after the other. */
  function Deliveries(q: seq<Timer>, n: nat): seq<Effect>
    decreases |q|
  {
    if q == [] then [] else Fanout(q[0], n) + Deliveries(q[1..], n)
  }

  /** The timers stamped with the given session, in queue order. */
  function Current(q: seq<Timer>, sessionId: int): (r: seq<Timer>)
    ensures |r| <= |q|
    ensures forall i :: 0 <= i < |r| ==> r[i].sessionId == sessionId && r[i] in q
    decreases |q|
  {
    if q == [] then []
    else if q[0].sessionId == sessionId then [q[0]] + Current(q[1..], sessionId)
    else Current(q[1..], sessionId)
  }

  /** The number of timers stamped with another session. */
  function Stale(q: seq<Timer>, sessionId: int): (k: nat)
    ensures k + |Current(q, sessionId)| == |q|
    decreases |q|
  {
    if q == [] then 0
    else (if q[0].sessionId == sessionId then 0 else 1) + Stale(q[1..], sessionId)
  }

  /** What the inner loop of ConsumeTimers produces: the timers still
      queued, how many it dequeued, how many of those were stale, and the
      callback calls it made. */
  datatype Consumed = Consumed(rest: seq<Timer>, dequeued: nat, stale: nat, calls: seq<Effect>)

  /** The inner loop of ConsumeTimers: dequeue every timer; hand those of
      the current session to every callback, count the others. */
  function ConsumeLoop(q: seq<Timer>, sessionId: int, numCallbacks: nat): (r: Consumed)
    ensures r.rest == [] && r.dequeued == |q|
    ensures r.stale == Stale(q, sessionId)
    ensures r.calls == Deliveries(Current(q, sessionId), numCallbacks)
    decreases |q|
  {
    if q == [] then Consumed([], 0, 0, [])
    else
      var r := ConsumeLoop(q[1..], sessionId, numCallbacks);
      if q[0].sessionId == sessionId then
        r.(dequeued := r.dequeued + 1, calls := Fanout(q[0], numCallbacks) + r.calls)
      else
        r.(dequeued := r.dequeued + 1, stale := r.stale + 1)
  }

  /** One wake-up of the ConsumeTimers thread, given the current session id.
      Nothing is dequeued once exit or a flush is requested. */
  function ConsumeTimers(m: Manager, sessionId: int): (r: Manager)
    ensures m.exitRequested || m.flushRequested ==> r == m
    ensures !m.exitRequested && !m.flushRequested ==>
      && r.timers == []
      && r.numQueuedEntries == m.numQueuedEntries - |m.timers|
      && r.numQueuedTimers == m.numQueuedTimers - |m.timers|
      && r.numTimersFromPreviousSession == m.numTimersFromPreviousSession + Stale(m.timers, sessionId)
      && r.effects == m.effects + Deliveries(Current(m.timers, sessionId), m.numCallbacks)
    ensures SameSettings(r, m) && r.messages == m.messages
    ensures r.numQueuedMessages == m.numQueuedMessages && r.numFlushedTimers == m.numFlushedTimers
    ensures Counted(m) ==> Counted(r)
  {
    if m.exitRequested || m.flushRequested then m
    else
      var c := ConsumeLoop(m.timers, sessionId, m.numCallbacks);
      m.(timers := c.rest, numQueuedEntries := m.numQueuedEntries - c.dequeued,
         numQueuedTimers := m.numQueuedTimers - c.dequeued,
         numTimersFromPreviousSession := m.numTimersFromPreviousSession + c.stale,
         effects := m.effects + c.calls)
  }

  /** The message loop of SendTimers: relay every queued message, front
      first. Returns the messages left and the sends made. */
  function RelayMessages(msgs: seq<Message>): (r: (seq<Message>, seq<Effect>))
    ensures r.0 == []
    ensures |r.1| == |msgs|
    ensures forall i :: 0 <= i < |msgs| ==> r.1[i] == Sent(Relayed(msgs[i]))
    decreases |msgs|
  {
    if msgs == [] then ([], [])
    else
      var r := RelayMessages(msgs[1..]);
      (r.0, [Sent(Relayed(msgs[0]))] + r.1)
  }

  /** One iteration of the SendTimers loop. While no entry is queued the
      thread waits, which leaves the state as it is; otherwise it sends one
      batch of at most 4096 timers (possibly empty), then the queued-entry
      count, then every queued message. timerSize is sizeof(Timer). */
  function SendTimers(m: Manager, timerSize: nat): (r: Manager)
    ensures m.exitRequested || m.numQueuedEntries <= 0 ==> r == m
    ensures !m.exitRequested && m.numQueuedEntries > 0 ==>
      var n := Min(BatchCapacity, |m.timers|);
      var k := |m.effects|;
      && r.timers == m.timers[n..]
      && r.messages == []
      && r.numQueuedEntries == m.numQueuedEntries - n - |m.messages|
      && r.numQueuedTimers == m.numQueuedTimers - n
      && r.numQueuedMessages == m.numQueuedMessages - |m.messages|
      && |r.effects| == k + 2 + |m.messages|
      && r.effects[..k] == m.effects
      && r.effects[k] == Sent(TimerBatch(m.timers[..n], n * timerSize))
      && r.effects[k + 1] == Sent(NumQueuedEntries(m.numQueuedEntries - n))
      && (forall i :: 0 <= i < |m.messages| ==> r.effects[k + 2 + i] == Sent(Relayed(m.messages[i])))
    ensures SameSettings(r, m)
    ensures r.numFlushedTimers == m.numFlushedTimers
    ensures r.numTimersFromPreviousSession == m.numTimersFromPreviousSession
    ensures Counted(m) ==> Counted(r)
  {
    if m.exitRequested || m.numQueuedEntries <= 0 then m
    else
      var n := Min(BatchCapacity, |m.timers|);
      var batch := Sent(TimerBatch(m.timers[..n], n * timerSize));
      var report := Sent(NumQueuedEntries(m.numQueuedEntries - n));
      var relay := RelayMessages(m.messages);
      m.(timers := m.timers[n..], messages := relay.0,
         numQueuedEntries := m.numQueuedEntries - n - |m.messages|,
         numQueuedTimers := m.numQueuedTimers - n,
         numQueuedMessages := m.numQueuedMessages - |m.messages|,
         effects := m.effects + [batch, report] + relay.1)
  }
}

=== FILE: timer_manager_properties.dfy ===
/** Properties of the timer manager that relate several operations or
    describe what an observer of the effect log sees. */
module TimerManagerProperties {
  import opened Timers
  import opened TimerManager

  /** The public operations and thread-loop iterations, as one step type. */
  datatype Op =
    | AddTimerOp(timer: Timer)
    | AddMessageOp(message: Message)
    | StartRecordingOp
    | StopRecordingOp
    | StartClientOp
    | StopClientOp(hasTcpClient: bool)
    | FlushQueueOp
    | StopOp(stopTimerSize: nat)
    | ConsumeTimersOp(sessionId: int)
    | SendTimersOp(timerSize: nat)

  function Apply(m: Manager, op: Op): Manager {
    match op
    case AddTimerOp(t) => AddTimer(m, t)
    case AddMessageOp(msg) => AddMessage(m, msg)
    case StartRecordingOp => StartRecording(m)
    case StopRecordingOp => StopRecording(m)
    case StartClientOp => StartClient(m)
    case StopClientOp(b) => StopClient(m, b)
    case FlushQueueOp => FlushQueue(m)
    case StopOp(size) => Stop(m, size)
    case ConsumeTimersOp(sid) => ConsumeTimers(m, sid)
    case SendTimersOp(size) => SendTimers(m, size)
  }

  function ApplyAll(m: Manager, ops: seq<Op>): Manager
    decreases |ops|
  {
    if ops == [] then m else ApplyAll(Apply(m, ops[0]), ops[1..])
  }

  /** From construction on, whatever the interleaving of operations, the
      entry and message counters match the queues, the timer counter never
      falls behind the timer queue, and no counter goes negative. */
  lemma {:induction false} CountersStayConsistent(isClient: bool, numCallbacks: nat, ops: seq<Op>)
    ensures Counted(ApplyAll(Create(isClient, numCallbacks), ops))
    ensures ApplyAll(Create(isClient, numCallbacks), ops).numQueuedEntries >= 0
    ensures ApplyAll(Create(isClient, numCallbacks), ops).numQueuedTimers >= 0
  {
    ApplyAllKeepsCounted(Create(isClient, numCallbacks), ops);
  }

  lemma {:induction false} ApplyAllKeepsCounted(m: Manager, ops: seq<Op>)
    requires Counted(m)
    ensures Counted(ApplyAll(m, ops))
    decreases |ops|
  {
    if ops != [] {
      ApplyKeepsCounted(m, ops[0]);
      ApplyAllKeepsCounted(Apply(m, ops[0]), ops[1..]);
    }
  }

  /** Every single operation keeps the bookkeeping invariant. */
  lemma ApplyKeepsCounted(m: Manager, op: Op)
    requires Counted(m)
    ensures Counted(Apply(m, op))
  {
  }

  /** FlushQueue empties the timer queue but leaves the timer counter where
      it was: the counter now exceeds the queue by the flushed timers. */
  lemma FlushLeavesTimerCounterBehind(m: Manager)
    requires Counted(m) && !m.exitRequested
    ensures var r := FlushQueue(m);
      r.numQueuedTimers - |r.timers| == (m.numQueuedTimers - |m.timers|) + |m.timers|
  {
  }

  /** StopClient flushes the timer queue as StopRecording does: recording
      off, the queue drained (unless exit is requested) with the entry
      counter dropping by the flushed timers, and nothing else changed. */
  lemma StopClientFlushesQueue(m: Manager, hasTcpClient: bool)
    ensures var r := StopClient(m, hasTcpClient);
      && !r.isRecording && !r.flushRequested
      && (!m.exitRequested ==>
            && r.timers == [] && r.numFlushedTimers == |m.timers|
            && r.numQueuedEntries == m.numQueuedEntries - |m.timers|
            && r.numQueuedTimers == m.numQueuedTimers)
      && (m.exitRequested ==> r.timers == m.timers && r.numFlushedTimers == 0 && r.numQueuedEntries == m.numQueuedEntries)
      && r.(isRecording := m.isRecording, timers := m.timers, numQueuedEntries := m.numQueuedEntries,
            numFlushedTimers := m.numFlushedTimers, flushRequested := m.flushRequested, effects := m.effects) == m
      && (Counted(m) ==> Counted(r))
  {
    var s := StopRecording(m);
    var r := StopClient(m, hasTcpClient);
    assert r.(effects := m.effects) == s.(effects := m.effects);
  }

  /** The effects a flush adds are flushed-count sends, never a send-queue
      flush. */
  lemma NoSendQueueFlushInReports(es: seq<Effect>, n: nat, reported: bool)
    requires reported ==> FlushReports(es, 0, n)
    requires !reported ==> es == []
    ensures SendQueueFlushed !in es
  {
    if reported {
      assert forall i :: 0 <= i < |es| ==> es[i].Sent?;
    }
  }

  /** In client mode without an exit request StopClient reports the
      cumulative flushed counts, and then, exactly when a TCP client exists,
      flushes the TCP send queue last. */
  lemma StopClientReportsThenFlushesSendQueue(m: Manager, hasTcpClient: bool)
    ensures var r := StopClient(m, hasTcpClient);
      var k := |r.effects| - (if hasTcpClient then 1 else 0);
      && |m.effects| <= k
      && r.effects[..|m.effects|] == m.effects
      && (hasTcpClient ==> r.effects[k] == SendQueueFlushed)
      && (m.isClient && !m.exitRequested ==> FlushReports(r.effects[|m.effects|..k], 0, |m.timers|))
      && (!m.isClient || m.exitRequested ==> k == |m.effects|)
      && (SendQueueFlushed in r.effects[|m.effects|..] <==> hasTcpClient)
  {
    var s := StopRecording(m);
    var r := StopClient(m, hasTcpClient);
    var tail := if hasTcpClient then [SendQueueFlushed] else [];
    assert r.effects[..|s.effects|] == s.effects;
    assert r.effects[..|m.effects|] == s.effects[..|m.effects|];
    assert r.effects[|m.effects|..] == s.effects[|m.effects|..] + tail;
    assert r.effects[|m.effects|..|s.effects|] == s.effects[|m.effects|..];
    NoSendQueueFlushInReports(s.effects[|m.effects|..], |m.timers|, m.isClient && !m.exitRequested);
  }

  /** In client mode the flushed counts reported while flushing n timers
      rise strictly, each by at most 4096, and the last one is n. */
  lemma FlushReportsRise(es: seq<Effect>, n: nat)
    requires FlushReports(es, 0, n)
    ensures forall i :: 0 <= i < |es| ==> es[i].Sent? && es[i].wire.NumFlushedEntries?
    ensures forall i :: 0 <= i < |es| ==> 0 < es[i].wire.flushed <= n
    ensures forall i, j :: 0 <= i < j < |es| ==> es[i].wire.flushed < es[j].wire.flushed
    ensures forall i :: 0 < i < |es| ==> es[i].wire.flushed - es[i - 1].wire.flushed <= BatchCapacity
    ensures n > 0 ==> |es| > 0 && es[|es| - 1].wire.flushed == n
    ensures n == 0 ==> es == []
  {
    BatchesIsCeiling(n);
  }

  /** StopRecording turns recording off before flushing, so a timer added
      afterwards is not queued. */
  lemma NoTimerQueuedAfterStopRecording(m: Manager, t: Timer)
    ensures AddTimer(StopRecording(m), t) == StopRecording(m)
  {
  }

  /** Stop is idempotent: a second Stop changes nothing. */
  lemma StopIdempotent(m: Manager, timerSize: nat)
    ensures Stop(Stop(m, timerSize), timerSize) == Stop(m, timerSize)
  {
  }

  /** As written, a second Stop on a manager whose worker thread ran joins
      the already joined thread, which throws. */
  lemma SecondStopAsWrittenThrows(m: Manager, timerSize: nat)
    requires m.thread.Running?
    ensures StopAsWritten(m, timerSize).Stopped?
    ensures StopAsWritten(StopAsWritten(m, timerSize).manager, timerSize).Threw?
  {
  }

  /** After Stop neither worker loop dequeues anything, no timer is queued
      any more, no message is queued unless in client mode, and a flush
      drains nothing. */
  lemma StopHaltsTheManager(m: Manager, timerSize: nat, sessionId: int, t: Timer, msg: Message)
    ensures var s := Stop(m, timerSize);
      && ConsumeTimers(s, sessionId) == s
      && SendTimers(s, timerSize) == s
      && AddTimer(s, t) == s
      && (!m.isClient ==> AddMessage(s, msg) == s)
      && FlushQueue(s).timers == s.timers
  {
  }

  /** The timer an effect hands to callback j, if it is such a call. */
  function CallOf(e: Effect, j: nat): seq<Timer> {
    if e.Delivered? && e.callback == j then [e.timer] else []
  }

  /** The timers a given callback is called with, in call order. */
  function CallsTo(es: seq<Effect>, j: nat): seq<Timer>
    decreases |es|
  {
    if es == [] then [] else CallOf(es[0], j) + CallsTo(es[1..], j)
  }

  lemma {:induction false} CallsToAppend(a: seq<Effect>, b: seq<Effect>, j: nat)
    ensures CallsTo(a + b, j) == CallsTo(a, j) + CallsTo(b, j)
    decreases |a|
  {
    if a == [] {
      assert a + b == b;
    } else {
      var h, t := CallOf(a[0], j), CallsTo(a[1..], j);
      calc {
        CallsTo(a + b, j);
        { assert (a + b)[0] == a[0] && (a + b)[1..] == a[1..] + b; }
        h + CallsTo(a[1..] + b, j);
        { CallsToAppend(a[1..], b, j); }
        h + (t + CallsTo(b, j));
        (h + t) + CallsTo(b, j);
      }
    }
  }

  lemma {:induction false} CallsToNone(es: seq<Effect>, j: nat)
    requires forall i :: 0 <= i < |es| ==> !es[i].Delivered? || es[i].callback != j
    ensures CallsTo(es, j) == []
    decreases |es|
  {
    if es != [] {
      CallsToNone(es[1..], j);
    }
  }

  lemma CallsToFanout(t: Timer, n: nat, j: nat)
    ensures CallsTo(Fanout(t, n), j) == if j < n then [t] else []
  {
    var f := Fanout(t, n);
    if j < n {
      assert f == f[..j] + [f[j]] + f[j + 1..];
      CallsToAppend(f[..j] + [f[j]], f[j + 1..], j);
      CallsToAppend(f[..j], [f[j]], j);
      CallsToNone(f[..j], j);
      CallsToNone(f[j + 1..], j);
      assert CallsTo([f[j]], j) == [t];
    } else {
      CallsToNone(f, j);
    }
  }

  /** Each registered callback is called with every given timer exactly
      once, in queue order; an unregistered index is never called. */
  lemma {:induction false} CallbackSeesTimersInOrder(q: seq<Timer>, n: nat, j: nat)
    ensures CallsTo(Deliveries(q, n), j) == if j < n then q else []
    decreases |q|
  {
    if q != [] {
      CallbackSeesTimersInOrder(q[1..], n, j);
      CallsToAppend(Fanout(q[0], n), Deliveries(q[1..], n), j);
      CallsToFanout(q[0], n, j);
    }
  }

  /** The timers kept by the session filter are exactly the queued timers of
      that session. */
  lemma {:induction false} CurrentMembers(q: seq<Timer>, sessionId: int, t: Timer)
    ensures t in Current(q, sessionId) <==> t in q && t.sessionId == sessionId
    decreases |q|
  {
    if q != [] {
      CurrentMembers(q[1..], sessionId, t);
      assert q == [q[0]] + q[1..];
    }
  }

  /** One wake-up of the consumer calls every registered callback with the
      queued timers of the current session, in queue order; a timer from
      another session reaches no callback. */
  lemma ConsumerDeliversCurrentSessionOnly(m: Manager, sessionId: int, j: nat, t: Timer)
    requires !m.exitRequested && !m.flushRequested
    ensures var r := ConsumeTimers(m, sessionId);
      && CallsTo(r.effects[|m.effects|..], j) == (if j < m.numCallbacks then Current(m.timers, sessionId) else [])
      && (t in CallsTo(r.effects[|m.effects|..], j) <==> j < m.numCallbacks && t in m.timers && t.sessionId == sessionId)
  {
    var r := ConsumeTimers(m, sessionId);
    assert r.effects[|m.effects|..] == Deliveries(Current(m.timers, sessionId), m.numCallbacks);
    CallbackSeesTimersInOrder(Current(m.timers, sessionId), m.numCallbacks, j);
    CurrentMembers(m.timers, sessionId, t);
  }

  /** The timers an effect sends, if it is a timer batch. */
  function BatchOf(e: Effect): seq<Timer> {
    if e.Sent? && e.wire.TimerBatch? then e.wire.timers else []
  }

  /** The timers sent in timer batches, in send order. */
  function SentTimers(es: seq<Effect>): seq<Timer>
    decreases |es|
  {
    if es == [] then [] else BatchOf(es[0]) + SentTimers(es[1..])
  }

  lemma {:induction false} SentTimersAppend(a: seq<Effect>, b: seq<Effect>)
    ensures SentTimers(a + b) == SentTimers(a) + SentTimers(b)
    decreases |a|
  {
    if a == [] {
      assert a + b == b;
    } else {
      var h, t := BatchOf(a[0]), SentTimers(a[1..]);
      calc {
        SentTimers(a + b);
        { assert (a + b)[0] == a[0] && (a + b)[1..] == a[1..] + b; }
        h + SentTimers(a[1..] + b);
        { SentTimersAppend(a[1..], b); }
        h + (t + SentTimers(b));
        (h + t) + SentTimers(b);
      }
    }
  }

  lemma {:induction false} SentTimersNone(es: seq<Effect>)
    requires forall i :: 0 <= i < |es| ==> !es[i].Sent? || !es[i].wire.TimerBatch?
    ensures SentTimers(es) == []
    decreases |es|
  {
    if es != [] {
      SentTimersNone(es[1..]);
    }
  }

  /** k iterations of the SendTimers loop. */
  function SendRounds(m: Manager, timerSize: nat, k: nat): (r: Manager)
    ensures |r.effects| >= |m.effects| && r.effects[..|m.effects|] == m.effects
    ensures Counted(m) ==> Counted(r)
    decreases k
  {
    if k == 0 then m
    else
      var m1 := SendTimers(m, timerSize);
      var r := SendRounds(m1, timerSize, k - 1);
      assert r.effects[..|m.effects|] == r.effects[..|m1.effects|][..|m.effects|];
      r
  }

  /** What the sender needs of a manager to drain its timer queue: no exit
      request, and an entry count covering the queued timers and messages. */
  ghost predicate SenderReady(m: Manager) {
    !m.exitRequested && m.numQueuedEntries >= |m.timers| + |m.messages|
  }

  /** What one SendTimers iteration sends in timer batches is the front of
      the timer queue it removed. */
  lemma SendTimersSendsFront(m: Manager, timerSize: nat)
    requires SenderReady(m) && m.timers != []
    ensures var r := SendTimers(m, timerSize);
      && SenderReady(r)
      && |r.timers| == |m.timers| - Min(BatchCapacity, |m.timers|)
      && |r.effects| >= |m.effects| && r.effects[..|m.effects|] == m.effects
      && SentTimers(r.effects[|m.effects|..]) + r.timers == m.timers
  {
    var r := SendTimers(m, timerSize);
    var n := Min(BatchCapacity, |m.timers|);
    var es := r.effects[|m.effects|..];
    assert es == [es[0]] + es[1..];
    SentTimersAppend([es[0]], es[1..]);
    SentTimersNone(es[1..]);
    assert SentTimers([es[0]]) == m.timers[..n];
  }

  /** Two consecutive stretches of the effect log send the timers of both. */
  lemma SentAcrossStretches(a: seq<Effect>, b: seq<Effect>, c: seq<Effect>, front: seq<Timer>, back: seq<Timer>)
    requires |a| <= |b| <= |c| && b[..|a|] == a && c[..|b|] == b
    requires SentTimers(b[|a|..]) == front && SentTimers(c[|b|..]) == back
    ensures SentTimers(c[|a|..]) == front + back
  {
    assert c[|a|..] == b[|a|..] + c[|b|..] by {
      assert c == b + c[|b|..];
    }
    SentTimersAppend(b[|a|..], c[|b|..]);
  }

  lemma SendRoundsUnfold(m: Manager, timerSize: nat, k: nat)
    requires k > 0
    ensures SendRounds(m, timerSize, k) == SendRounds(SendTimers(m, timerSize), timerSize, k - 1)
  {
  }

  /** Without an exit request, Batches(|q|) iterations of the sender send the
      whole timer queue q, in order and each timer once, in batches. */
  lemma SenderSendsWholeQueueInOrder(m: Manager, timerSize: nat)
    requires Counted(m) && !m.exitRequested
    ensures var r := SendRounds(m, timerSize, Batches(|m.timers|));
      r.timers == [] && SentTimers(r.effects[|m.effects|..]) == m.timers
  {
    SenderDrainsQueue(m, timerSize);
  }

  /** One sender iteration on a non-empty queue leaves one batch fewer to
      send. */
  lemma SenderRoundStep(m: Manager, timerSize: nat)
    requires SenderReady(m) && m.timers != []
    ensures var m1 := SendTimers(m, timerSize);
      && Batches(|m1.timers|) == Batches(|m.timers|) - 1
      && SendRounds(m, timerSize, Batches(|m.timers|)) == SendRounds(m1, timerSize, Batches(|m1.timers|))
  {
    var m1 := SendTimers(m, timerSize);
    assert |m1.timers| == |m.timers| - Min(BatchCapacity, |m.timers|);
    assert Batches(|m.timers|) == 1 + Batches(|m1.timers|);
    SendRoundsUnfold(m, timerSize, Batches(|m.timers|));
  }

  lemma {:induction false} SenderDrainsQueue(m: Manager, timerSize: nat)
    requires SenderReady(m)
    ensures var r := SendRounds(m, timerSize, Batches(|m.timers|));
      r.timers == [] && SentTimers(r.effects[|m.effects|..]) == m.timers
    decreases |m.timers|
  {
    if m.timers == [] {
      assert SendRounds(m, timerSize, Batches(|m.timers|)) == m;
    } else {
      var m1 := SendTimers(m, timerSize);
      SendTimersSendsFront(m, timerSize);
      SenderRoundStep(m, timerSize);
      SenderDrainsQueue(m1, timerSize);
      var r := SendRounds(m1, timerSize, Batches(|m1.timers|));
      SentAcrossStretches(m.effects, m1.effects, r.effects,
                          SentTimers(m1.effects[|m.effects|..]), m1.timers);
    }
  }

  /** 5000 queued timers and no message go out in two sender iterations: a
      batch of 4096 and a report of 904 still queued, then a batch of 904
      and a report of 0. */
  lemma FiveThousandTimersGoOutInTwoBatches(m: Manager, timerSize: nat)
    requires Counted(m) && !m.exitRequested
    requires |m.timers| == 5000 && m.messages == []
    ensures var r := SendTimers(SendTimers(m, timerSize), timerSize);
      && r.timers == []
      && r.effects == m.effects + [
           Sent(TimerBatch(m.timers[..4096], 4096 * timerSize)), Sent(NumQueuedEntries(904)),
           Sent(TimerBatch(m.timers[4096..], 904 * timerSize)), Sent(NumQueuedEntries(0))]
  {
    var m1 := SendTimers(m, timerSize);
    var r := SendTimers(m1, timerSize);
    assert m1.effects == m.effects + [Sent(TimerBatch(m.timers[..4096], 4096 * timerSize)), Sent(NumQueuedEntries(904))];
    assert m1.timers[..904] == m.timers[4096..];
    assert r.effects == m1.effects + [Sent(TimerBatch(m.timers[4096..], 904 * timerSize)), Sent(NumQueuedEntries(0))];
  }
}

=== FILE: timers.dfy ===
/** The timer record shared by the event visitor and the timer manager.
    Timer.h is not part of this model: the record keeps only the fields the
    modelled code reads or writes. */
module Timers {

  /** The range of a C++ `uint8_t`. */
  type Byte = x: int | 0 <= x < 256

  /** The conversion `(uint8_t)n` of a non-negative size: C++ keeps the value
      modulo 256. */
  function ToUint8(n: nat): (b: Byte)
    ensures n < 256 ==> b == n
    ensures (n - b) % 256 == 0
  {
    n % 256
  }

  /** One function execution interval.
      - tid: the thread the interval ran on
      - start, end: timestamps of the entry and of the return
      - depth: number of intervals already open on the thread at entry, as a uint8_t
      - functionAddress: virtual address of the instrumented function
      - sessionId: the recording session the timer belongs to */
  datatype Timer = Timer(
    tid: int,
    start: int,
    end: int,
    depth: Byte,
    functionAddress: nat,
    sessionId: int)
}
